=== FILE: README.md ===
# eMed onboarding: enrollment-code lifecycle and admin/partner handlers

A Dafny model of the request handlers of the eMed onboarding backend
(`backend/server.js`). Companies are provisioned with a first admin. Admins
issue batches of one-time enrollment codes. Employees validate and redeem a
code to enroll, which creates an enrolled user and orders a lab kit. Admins can
deactivate employees. A lab partner reports results through a webhook.

The relational store is an immutable record of id-indexed tables:
companies, admins, programs, code batches, enrollment codes, enrolled users,
lab kits and lab results (`Schema.Store`). Each table draws fresh ids from its
own counter (`Tables.Table`). Every handler is a pure function from a store and
a request to a response and a new store (`Handlers.Transition`). The
`isCompanyAdmin` guard is a precondition of the two admin handlers.
`Handlers.Step` routes a request and answers 403 when that guard fails.

Inputs that the server takes from its environment are parameters:
- the clock (`now`, an integer timestamp);
- the `Math.random` fragments, typed as strings of at most 4, 6 or 8
  characters of `[0-9A-Z]` (`Identifiers.Frag4/Frag6/Frag8`);
- the bcrypt hash of the temporary password (a function `hash`).

A `SELECT ... WHERE` without ordering is modelled as returning the matching
row with the least id (`Tables.Find`).

Modules:
- `Tables`: id-indexed tables, insert, update, first-match lookup.
- `Schema`: the row types and the store.
- `Naming`: the portal name, the company prefix and the size-bucket estimate.
- `Identifiers`: enrollment-code strings, eMED identifiers, kit identifiers, temporary passwords.
- `Handlers`: the six handlers, the admin guard and the router.
- `Lifecycle`: the code state machine and the store invariant, over single requests and request sequences.
- `Workflow`: cross-handler scenarios such as validate-after-generate, redeem-twice and expire-then-redeem.

The model follows the code as written; in particular:
- Enrollment checks only `status = 'active'`, never `expires_at`.
- A batch with `quantity <= 0` is not rejected. It stores one batch row and no codes.
- Provisioning only reads the GLP1 program; it never creates it.
- Each handler is one step that answers as the handler evidently intends. Its transaction calls do not work as written; see the `Handlers.*` lines under "## Left out".

## Model

| member | source | states |
|---|---|---|
| Handlers.Step | backend/server.js:61-81 | an admin route answers 403 "Access denied" exactly when its caller is not an active admin of the token's company, and then writes nothing; an active admin's generate or deactivate request is answered by that handler itself |
| Handlers.Provision | backend/server.js:168-234 | exactly one company row and one admin row are added under fresh ids, the admin linked to the new company and active with the hash of `eMed{fragment}`; the response carries both ids, the company name as stored in the new row (the requested name), the email, the temporary password and `https://emed-care.com/portal/{portal name}`; no other table changes |
| Workflow.ProvisionedAdminPassesGuard | backend/server.js:198-202 | the admin created by provisioning passes the company-admin check for the new company and stores the requested email and company name |
| Workflow.PortalUrlShape | backend/server.js:216-218 | the portal URL is the fixed base followed by a `[a-z0-9]` name, and re-deriving a URL from that name reproduces it |
| Naming.PortalName | backend/server.js:217 | the portal name has only `[a-z0-9]` characters and is no longer than the company name |
| Naming.PortalNameFixpoint | backend/server.js:217 | a string is its own portal name exactly when it consists of `[a-z0-9]` only |
| Naming.PortalNameChar | backend/server.js:217 | a single character is lower-cased (ASCII) and kept exactly when the result is a lower-case letter or digit; with the concatenation lemma this fixes the portal name of every string |
| Naming.PortalNameIdempotent | backend/server.js:217 | normalising a portal name again changes nothing |
| Naming.PortalNameConcat | backend/server.js:217 | normalisation works character by character: the portal name of a concatenation is the concatenation of the portal names |
| Naming.CompanyPrefix | backend/server.js:260 | the prefix has min(3, length) characters, no lower-case ASCII letter, and agrees with the company name's first characters up to case |
| Handlers.GenerateCodes | backend/server.js:247-310 | unknown company gives 404 "Company not found" and missing GLP1 program gives 404 "Program not found", both with no write; otherwise success, with one batch row and exactly max(quantity, 0) active code rows carrying the batch id, company id and first GLP1 program id, returned in insertion order as `{PREFIX}-GLP1-{fragment}`; no other table changes |
| Workflow.BatchRowsBelongToBatch | backend/server.js:276-299 | every row added by a batch is an active, unexpired code of that batch, company and GLP1 program whose string is among the returned codes, and the batch returns max(quantity, 0) codes |
| Workflow.GeneratedCodeValidates | backend/server.js:288-296 | a code just issued by a batch, whose string no earlier row carries, validates for the batch's company and program |
| Identifiers.CodeFragmentRoundTrip | backend/server.js:289-290 | the random part of an enrollment code is the text after its last dash |
| Identifiers.CodeStringInjective | backend/server.js:289-290 | two enrollment codes are equal only when both prefixes and both random parts are equal |
| Identifiers.CodeShape | backend/server.js:289-290 | an enrollment code ends in "-GLP1-" followed by a fragment of at most six `[0-9A-Z]` characters |
| Handlers.ValidateCode | backend/server.js:376-415 | with no active code of that string joined to an existing company and program, it answers "Invalid or expired code" and writes nothing; for the first such code past `expires_at` it answers "Code has expired" and changes only that code's status to expired; otherwise it answers valid with the code's company and program and writes nothing; the status is 200 exactly for a valid answer and 400 otherwise |
| Workflow.ValidateIdempotentWhenValid | backend/server.js:378-415 | a valid answer leaves the store unchanged, so repeating the call gives the same answer |
| Workflow.ExpiredCodeIsDead | backend/server.js:394-401 | after validation expires a code (the only row with that string), later validations report it invalid and enrollments reject it, with no writes |
| Handlers.Enroll | backend/server.js:426-491 | with no active code of that string it answers 400 "Invalid or expired enrollment code" and writes nothing; otherwise one user is added with the code's company, program and id, the eMED id `eMED-{company}-{fragment}` and status active; the code becomes used by that user at `now`; one kit `KIT-{fragment}` is added in `ordered`; no other row changes |
| Workflow.EnrollStatus | backend/server.js:445-491 | an enrollment is answered 201 when it succeeds and 400 otherwise |
| Workflow.EnrollIgnoresExpiry | backend/server.js:439-443 | changing any code's `expires_at` does not change the answer of an enrollment |
| Workflow.EnrollAcceptsExpiredActiveCode | backend/server.js:439-443 | an active code already past its expiry still enrolls |
| Workflow.RedeemedCodeIsSpent | backend/server.js:439-472 | after a successful enrollment with a code (the only row with that string), a second enrollment with it answers 400 and validation answers invalid, both with no writes |
| Workflow.EnrollmentIdentifiers | backend/server.js:453-480 | the eMED identifier reads back as "eMED-", the code's company id in decimal, "-" and a fragment of at most four `[0-9A-Z]` characters; the new kit's identifier is "KIT-" followed by at most eight such characters |
| Identifiers.DecimalRoundTrip | backend/server.js:454 | the decimal rendering of a company id reads back as that id |
| Identifiers.EmedIdentifierInjective | backend/server.js:453-454 | equal eMED identifiers have equal company ids and equal random parts, so users of different companies never share one |
| Identifiers.EmedIdentifierShape | backend/server.js:454 | an eMED identifier is "eMED-", the company id's digits, "-" and the fragment |
| Identifiers.KitIdentifierInjective | backend/server.js:475 | kit identifiers are equal only when their random parts are |
| Handlers.Deactivate | backend/server.js:593-614 | a user who is absent or belongs to another company gives 404 "Employee not found" with no write; otherwise only that user's status becomes inactive |
| Workflow.DeactivateIdempotent | backend/server.js:607-612 | deactivating twice gives the same response and store as deactivating once |
| Handlers.RecordLabResult | backend/server.js:627-661 | an unknown kit identifier gives 404 "Lab kit not found" with no write; otherwise the first kit with that identifier becomes processed at `now` and exactly one lab result with the kit's user id and kit id is added; nothing else changes |
| Lifecycle.StepCodesEvolve | backend/server.js:394-472 | no request deletes a code or moves one back to active, and a used or expired code row is never written again |
| Lifecycle.RunCodesEvolve | backend/server.js:394-472 | the same holds across any sequence of requests |
| Lifecycle.EnrollPreservesLinked | backend/server.js:457-480 | enrollment keeps the store invariant: users and used codes correspond one to one, every kit has a user, every result belongs to its kit's user, and no kit is processed without a result |
| Lifecycle.RecordLabResultPreservesLinked | backend/server.js:646-656 | recording a lab result keeps the store invariant; the processed kit has its result row |
| Lifecycle.StepPreservesLinked | backend/server.js:457-656 | every request keeps the store invariant |
| Lifecycle.RunPreservesLinked | backend/server.js:457-656 | any sequence of requests keeps the store invariant |
| Lifecycle.OneUserPerCode | backend/server.js:457-472 | under the invariant, two enrolled users never share an enrollment code |
| Naming.EstimatedEmployees | backend/server.js:515-522 | '1-50' gives 50, '51-200' gives 200, '201-500' gives 500, '501-1000' gives 1000, '1001+' gives 2000, and every other size gives 100 |
| Naming.EstimateIncreasesWithBucket | backend/server.js:515-522 | a later bucket in the order '1-50', '51-200', '201-500', '501-1000', '1001+' always gives a strictly larger estimate |

## Left out

- Login (`/api/auth/login`) is left out. It consists of a bcrypt comparison, a JWT issue and a `last_login` write.
- JWT verification (`authenticateToken`) is left out. The verified principal `{admin_id, company_id}` is an input.
- CORS and body-parser middleware are left out; they are HTTP plumbing.
- The code and batch listings, the metrics query and the employee listing are left out. They are read-only reporting queries; the employee listing builds its SQL text by interpolation. Only the metrics size-bucket table is modelled.
- The seed route, the health check and server start-up are left out. They are environment-gated or operational.
- Storage failures, and the 500 answers they cause, are not modelled.
- Unique-constraint collisions are not modelled; those constraints live in a schema that is not part of this model. The model therefore allows duplicate code strings. Lemmas that need a unique string take that as a hypothesis.
- Partial writes are not modelled. In the source, a handler that throws after a write leaves that write behind, because its queries run outside any transaction.
- Handlers.Provision: gives the evidently intended 201 answer with the temporary password. Read as written, the handler never returns that answer. The database client (`backend/db.js`) is a postgres.js client, whose `begin` expects a callback and returns a promise. So `tx` (server.js:182) has no `commit`, and the call at server.js:214 throws after both inserts. The handler would then answer 500 "Failed to provision company portal" and never return the temporary password. Alternatively, the runtime may stop on the rejected `begin` promise.
- Handlers.GenerateCodes: gives the evidently intended 201 answer with the codes. Read as written, the failing `commit` at server.js:302 makes the handler answer 500 "Failed to generate enrollment codes" after the batch and code rows are stored. The two 404 answers come before `begin` and are as modelled.
- Handlers.Enroll: gives the evidently intended 201 answer, and 400 for a code that is not active. Read as written, the `rollback` at server.js:446 throws, so an unknown or inactive code gets 500 "Enrollment failed" instead of 400. The `commit` at server.js:483 throws after the user, code and kit writes, so a successful enrollment also answers 500.
- Handlers.RecordLabResult: gives the evidently intended 201 answer, and 404 for an unknown kit. Read as written, the `rollback` at server.js:639 throws, so an unknown kit gets 500 "Server error". The `commit` at server.js:659 throws after the kit update and the result insert, so a recorded result also answers 500.
- Request bodies with missing or wrongly typed fields are not modelled. Examples are an absent `adminUser`, a non-numeric `userId`, or a fractional or string `quantity`. All fields are strings, `quantity` is an integer, and ids are natural numbers.
- `Math.random`, `new Date()` and `bcrypt.hash` are parameters, not implementations.
- Naming.PortalName: maps case for ASCII letters only. JavaScript's full Unicode `toLowerCase` can turn a few non-ASCII letters into ASCII ones (the Kelvin sign, the dotted capital I).
- Naming.CompanyPrefix: maps case for ASCII letters only. JavaScript's upper-casing also maps non-ASCII letters and can lengthen the text ('ß' becomes "SS"). The model also counts the three leading characters as Unicode scalar values, whereas the source counts UTF-16 code units. So for a name that starts with a character outside the Basic Multilingual Plane the two differ: for "😀Acme" the source takes "😀A" and the model takes "😀AC".
- Creation timestamps (`created_at`), admin `last_login`, and the provisioning fields `primaryContact` and `planDetails` are not modelled. None of the modelled handlers reads them.
- The provisioning handler reads the GLP1 program and never uses the result, so the model omits that read.
- Column defaults are assumptions: a new code is `active` with no expiry, a new admin is active, and a new user is `active` with `enrollment_date = NOW()`. The schema that defines them is not part of this model.
- Telehealth-review and pharmacy-update webhooks have no handler in `backend/server.js` and are not part of this model.
- Concurrency is not modelled: requests are served one at a time.
- The duplicate serverless handlers (`backend/api/...`) and all frontend code are not part of this model.

=== FILE: handlers.dfy ===
/** The request handlers of the server, each a pure transition from a store
to a response and a new store.

Every handler is one atomic step. The time `now` and the random fragments
are inputs; so is the password hash function.
*/
module Handlers {
  import opened Tables
  import opened Schema
  import opened Naming
  import opened Identifiers

  /** The authenticated caller of an admin route (the verified token's claims). */
  datatype Principal = Principal(adminId: nat, companyId: nat)

  datatype ProvisionRequest = ProvisionRequest(
    companyName: string,
    address: string,
    industry: string,
    size: string,
    adminName: string,
    adminEmail: string,
    adminTitle: string)

  datatype EnrollRequest = EnrollRequest(
    code: string,
    name: string,
    email: string,
    phone: string,
    dateOfBirth: string,
    address: string)

  /** The JSON bodies the handlers answer with. */
  datatype Response =
    | Provisioned(companyId: nat, companyName: string, adminId: nat, adminEmail: string,
                  tempPassword: string, portalUrl: string)
    | CodesGenerated(batchId: nat, companyId: nat, programId: nat, quantity: int, codes: seq<string>)
    | CodeValid(companyId: nat, companyName: string, programId: nat, programName: string,
                programDescription: string)
    | CodeInvalid(message: string)
    | Enrolled(userId: nat, name: string, email: string, enrollmentDate: int, emedIdentifier: string)
    | Deactivated
    | LabResultStored
    | Rejected(status: nat, error: string)

  /** The HTTP status each response is sent with. */
  function HttpStatus(r: Response): nat {
    match r
    case Provisioned(_, _, _, _, _, _) => 201
    case CodesGenerated(_, _, _, _, _) => 201
    case CodeValid(_, _, _, _, _) => 200
    case CodeInvalid(_) => 400
    case Enrolled(_, _, _, _, _) => 201
    case Deactivated => 200
    case LabResultStored => 201
    case Rejected(status, _) => status
  }

  datatype Transition = Transition(response: Response, store: Store)

  const AccessDenied := "Access denied"
  const CompanyNotFound := "Company not found"
  const ProgramNotFound := "Program not found"
  const InvalidCodeMessage := "Invalid or expired code"
  const ExpiredCodeMessage := "Code has expired"
  const InvalidEnrollmentCode := "Invalid or expired enrollment code"
  const EmployeeNotFound := "Employee not found"
  const LabKitNotFound := "Lab kit not found"
  const Glp1 := "GLP1"

  // ----- isCompanyAdmin -----

  /** The caller is an active admin of the company named in its token. */
  predicate IsCompanyAdmin(s: Store, p: Principal) {
    && p.adminId in s.admins.rows
    && s.admins.rows[p.adminId].companyId == p.companyId
    && s.admins.rows[p.adminId].active
  }

  // ----- POST /api/companies/provision -----

  /** Inserts the company, then its first admin with a hashed temporary
      password, and answers with the credentials and the portal address. */
  function Provision(s: Store, req: ProvisionRequest, passwordFragment: Frag6,
                     hash: string -> string): (t: Transition)
    ensures t.response.Provisioned?
    ensures t.response.companyId == s.companies.next
    ensures t.response.adminId == s.admins.next
    ensures Appended(s.companies, t.store.companies,
                     [Company(req.companyName, req.address, req.industry, req.size)])
    ensures Appended(s.admins, t.store.admins,
                     [Admin(t.response.companyId, req.adminName, req.adminEmail, req.adminTitle,
                            hash(t.response.tempPassword), true)])
    ensures t.response.companyName == req.companyName
    ensures t.response.companyId in t.store.companies.rows
            && t.store.companies.rows[t.response.companyId].name == t.response.companyName
    ensures t.response.adminEmail == req.adminEmail
    ensures t.response.tempPassword == TempPassword(passwordFragment)
    ensures t.response.portalUrl == PortalBase + PortalName(req.companyName)
    ensures t.store == s.(companies := t.store.companies, admins := t.store.admins)
  {
    var (companyId, companies) :=
      Insert(s.companies, Company(req.companyName, req.address, req.industry, req.size));
    var password := TempPassword(passwordFragment);
    var (adminId, admins) :=
      Insert(s.admins, Admin(companyId, req.adminName, req.adminEmail, req.adminTitle,
                             hash(password), true));
    Transition(
      Provisioned(companyId, req.companyName, adminId, req.adminEmail, password,
                  PortalUrl(req.companyName)),
      s.(companies := companies, admins := admins))
  }

  // ----- POST /api/codes/generate -----

  predicate IsGlp1Program(p: Program) { p.code == Glp1 }

  /** How many codes the generation loop inserts: `quantity` when positive, else none. */
  function IterationCount(quantity: int): nat {
    if quantity > 0 then quantity else 0
  }

  /** `row` is a code just issued by the batch: it belongs to the batch's
      company and program, was created by the batch's admin, is active,
      has never been redeemed and has no expiry. */
  predicate IssuedBy(row: EnrollmentCode, companyId: nat, programId: nat, adminId: nat,
                     batchId: nat) {
    && row.companyId == companyId
    && row.programId == programId
    && row.createdBy == adminId
    && row.batchId == batchId
    && row.status == Active
    && row.usedAt.None? && row.usedByUserId.None?
    && row.expiresAt.None?
  }

  /** The code rows of one batch, in insertion order. */
  function BatchCodes(codes: seq<string>, companyId: nat, programId: nat, adminId: nat,
                      batchId: nat): (rows: seq<EnrollmentCode>)
    ensures |rows| == |codes|
    ensures forall j :: 0 <= j < |rows| ==>
      rows[j].code == codes[j] && IssuedBy(rows[j], companyId, programId, adminId, batchId)
  {
    seq(|codes|, j requires 0 <= j < |codes| =>
      EnrollmentCode(codes[j], companyId, programId, adminId, batchId, Active, None, None, None))
  }

  /** Looks up the caller's company and the GLP1 program, then inserts one
      batch row and `quantity` code rows `{PREFIX}-GLP1-{random}`. */
  function GenerateCodes(s: Store, p: Principal, quantity: int, notes: Option<string>,
                         fragments: nat -> Frag6): (t: Transition)
    requires IsCompanyAdmin(s, p)
    ensures p.companyId !in s.companies.rows ==>
      t == Transition(Rejected(404, CompanyNotFound), s)
    ensures p.companyId in s.companies.rows
            && (forall k :: k in s.programs.rows ==> !IsGlp1Program(s.programs.rows[k])) ==>
      t == Transition(Rejected(404, ProgramNotFound), s)
    ensures p.companyId in s.companies.rows
            && (exists k :: k in s.programs.rows && IsGlp1Program(s.programs.rows[k])) ==>
      t.response.CodesGenerated?
    ensures t.response.CodesGenerated? || t.response.Rejected?
    ensures t.response.CodesGenerated? ==>
      var r := t.response;
      var n := IterationCount(quantity);
      && p.companyId in s.companies.rows
      && IsFirst(s.programs, IsGlp1Program, r.programId)
      && r.batchId == s.batches.next
      && r.companyId == p.companyId
      && r.quantity == quantity
      && |r.codes| == n
      && (forall j :: 0 <= j < n ==>
            r.codes[j] == EnrollmentCodeString(CompanyPrefix(s.companies.rows[p.companyId].name),
                                               fragments(j)))
      && Appended(s.batches, t.store.batches,
                  [CodeBatch(p.companyId, r.programId, quantity, p.adminId, notes.GetOr(""))])
      && Appended(s.codes, t.store.codes,
                  BatchCodes(r.codes, p.companyId, r.programId, p.adminId, r.batchId))
      && t.store == s.(batches := t.store.batches, codes := t.store.codes)
  {
    if p.companyId !in s.companies.rows then
      Transition(Rejected(404, CompanyNotFound), s)
    else
      match Find(s.programs, IsGlp1Program)
      case None => Transition(Rejected(404, ProgramNotFound), s)
      case Some(programId) => IssueBatch(s, p, programId, quantity, notes, fragments)
  }

  /** Inserts one batch row and its code rows for a known company and program. */
  function IssueBatch(s: Store, p: Principal, programId: nat, quantity: int,
                      notes: Option<string>, fragments: nat -> Frag6): (t: Transition)
    requires p.companyId in s.companies.rows
    ensures t.response.CodesGenerated?
    ensures var r := t.response;
      var n := IterationCount(quantity);
      && r.programId == programId
      && r.batchId == s.batches.next
      && r.companyId == p.companyId
      && r.quantity == quantity
      && |r.codes| == n
      && (forall j :: 0 <= j < n ==>
            r.codes[j] == EnrollmentCodeString(CompanyPrefix(s.companies.rows[p.companyId].name),
                                               fragments(j)))
      && Appended(s.batches, t.store.batches,
                  [CodeBatch(p.companyId, programId, quantity, p.adminId, notes.GetOr(""))])
      && Appended(s.codes, t.store.codes,
                  BatchCodes(r.codes, p.companyId, programId, p.adminId, r.batchId))
      && t.store == s.(batches := t.store.batches, codes := t.store.codes)
  {
    var prefix := CompanyPrefix(s.companies.rows[p.companyId].name);
    var (batchId, batches) :=
      Insert(s.batches, CodeBatch(p.companyId, programId, quantity, p.adminId, notes.GetOr("")));
    var n := IterationCount(quantity);
    var codes := seq(n, j requires 0 <= j < n => EnrollmentCodeString(prefix, fragments(j)));
    Transition(
      CodesGenerated(batchId, p.companyId, programId, quantity, codes),
      s.(batches := batches,
         codes := InsertAll(s.codes, BatchCodes(codes, p.companyId, programId, p.adminId, batchId))))
  }

  // ----- POST /api/codes/validate -----

  /** The rows the validation query returns: the code, still active, joined
      with its program and its company. */
  function ValidatableCode(s: Store, code: string): EnrollmentCode -> bool {
    (row: EnrollmentCode) => row.code == code && row.status == Active
           && row.programId in s.programs.rows && row.companyId in s.companies.rows
  }

  predicate IsExpired(row: EnrollmentCode, now: int) {
    row.expiresAt.Some? && row.expiresAt.value < now
  }

  /** Reports whether `code` can be redeemed; an active code found past its
      expiry is marked expired on the way. */
  function ValidateCode(s: Store, code: string, now: int): (t: Transition)
    ensures (forall k :: k in s.codes.rows ==> !ValidatableCode(s, code)(s.codes.rows[k])) ==>
      t == Transition(CodeInvalid(InvalidCodeMessage), s)
    ensures forall id :: IsFirst(s.codes, ValidatableCode(s, code), id) ==>
      var row := s.codes.rows[id];
      if IsExpired(row, now) then
        && t.response == CodeInvalid(ExpiredCodeMessage)
        && Replaced(s.codes, t.store.codes, id, row.(status := Expired))
        && t.store == s.(codes := t.store.codes)
      else
        var program := s.programs.rows[row.programId];
        t == Transition(CodeValid(row.companyId, s.companies.rows[row.companyId].name,
                                  row.programId, program.name, program.description), s)
    ensures t.response.CodeValid? || t.response.CodeInvalid?
    ensures HttpStatus(t.response) == (if t.response.CodeValid? then 200 else 400)
  {
    match Find(s.codes, ValidatableCode(s, code))
    case None => Transition(CodeInvalid(InvalidCodeMessage), s)
    case Some(id) =>
      var row := s.codes.rows[id];
      if IsExpired(row, now) then
        Transition(CodeInvalid(ExpiredCodeMessage),
                   s.(codes := Update(s.codes, id, row.(status := Expired))))
      else
        var program := s.programs.rows[row.programId];
        Transition(CodeValid(row.companyId, s.companies.rows[row.companyId].name,
                             row.programId, program.name, program.description), s)
  }

  // ----- POST /api/enroll -----

  /** The rows the enrollment query returns: the code, still active. Expiry
      is not consulted. */
  function RedeemableCode(code: string): EnrollmentCode -> bool {
    (row: EnrollmentCode) => row.code == code && row.status == Active
  }

  function NewUser(row: EnrollmentCode, codeId: nat, req: EnrollRequest, emed: string,
                   now: int): EnrolledUser {
    EnrolledUser(row.companyId, row.programId, codeId, req.name, req.email, req.phone,
                 req.dateOfBirth, req.address, emed, UserActive, now)
  }

  /** Redeems an active code: one new enrolled user, the code marked used by
      that user, and one lab kit ordered for the user. */
  function Enroll(s: Store, req: EnrollRequest, now: int, emedFragment: Frag4,
                  kitFragment: Frag8): (t: Transition)
    ensures (forall k :: k in s.codes.rows ==> !RedeemableCode(req.code)(s.codes.rows[k])) ==>
      t == Transition(Rejected(400, InvalidEnrollmentCode), s)
    ensures forall id :: IsFirst(s.codes, RedeemableCode(req.code), id) ==>
      var row := s.codes.rows[id];
      var userId := s.users.next;
      var emed := EmedIdentifier(row.companyId, emedFragment);
      && t.response == Enrolled(userId, req.name, req.email, now, emed)
      && Appended(s.users, t.store.users, [NewUser(row, id, req, emed, now)])
      && Replaced(s.codes, t.store.codes, id,
                  row.(status := Used, usedAt := Some(now), usedByUserId := Some(userId)))
      && Appended(s.kits, t.store.kits, [LabKit(userId, KitIdentifier(kitFragment), Ordered, None)])
      && t.store == s.(users := t.store.users, codes := t.store.codes, kits := t.store.kits)
    ensures t.response.Enrolled? || t.response == Rejected(400, InvalidEnrollmentCode)
  {
    match Find(s.codes, RedeemableCode(req.code))
    case None => Transition(Rejected(400, InvalidEnrollmentCode), s)
    case Some(codeId) =>
      var row := s.codes.rows[codeId];
      var emed := EmedIdentifier(row.companyId, emedFragment);
      var (userId, users) := Insert(s.users, NewUser(row, codeId, req, emed, now));
      var codes := Update(s.codes, codeId,
                          row.(status := Used, usedAt := Some(now), usedByUserId := Some(userId)));
      var (_, kits) := Insert(s.kits, LabKit(userId, KitIdentifier(kitFragment), Ordered, None));
      Transition(Enrolled(userId, req.name, req.email, now, emed),
                 s.(users := users, codes := codes, kits := kits))
  }

  // ----- PUT /api/employees/:userId/deactivate -----

  predicate BelongsTo(s: Store, userId: nat, companyId: nat) {
    userId in s.users.rows && s.users.rows[userId].companyId == companyId
  }

  /** Marks an employee of the caller's company inactive. */
  function Deactivate(s: Store, p: Principal, userId: nat): (t: Transition)
    requires IsCompanyAdmin(s, p)
    ensures !BelongsTo(s, userId, p.companyId) ==>
      t == Transition(Rejected(404, EmployeeNotFound), s)
    ensures BelongsTo(s, userId, p.companyId) ==>
      && t.response == Deactivated
      && Replaced(s.users, t.store.users, userId, s.users.rows[userId].(status := UserInactive))
      && t.store == s.(users := t.store.users)
  {
    if BelongsTo(s, userId, p.companyId) then
      var user := s.users.rows[userId];
      Transition(Deactivated, s.(users := Update(s.users, userId, user.(status := UserInactive))))
    else
      Transition(Rejected(404, EmployeeNotFound), s)
  }

  // ----- POST /api/webhooks/lab-results -----

  function KitNamed(kitIdentifier: string): LabKit -> bool {
    (kit: LabKit) => kit.kitIdentifier == kitIdentifier
  }

  /** Marks the named kit processed and stores the partner's result for its user. */
  function RecordLabResult(s: Store, kitIdentifier: string, resultData: string,
                           now: int): (t: Transition)
    ensures (forall k :: k in s.kits.rows ==> s.kits.rows[k].kitIdentifier != kitIdentifier) ==>
      t == Transition(Rejected(404, LabKitNotFound), s)
    ensures forall id :: IsFirst(s.kits, KitNamed(kitIdentifier), id) ==>
      var kit := s.kits.rows[id];
      && t.response == LabResultStored
      && Replaced(s.kits, t.store.kits, id, kit.(status := Processed, processedAt := Some(now)))
      && Appended(s.results, t.store.results, [LabResult(kit.userId, id, resultData)])
      && t.store == s.(kits := t.store.kits, results := t.store.results)
    ensures t.response.LabResultStored? || t.response.Rejected?
  {
    match Find(s.kits, KitNamed(kitIdentifier))
    case None => Transition(Rejected(404, LabKitNotFound), s)
    case Some(kitId) =>
      var kit := s.kits.rows[kitId];
      var kits := Update(s.kits, kitId, kit.(status := Processed, processedAt := Some(now)));
      var (_, results) := Insert(s.results, LabResult(kit.userId, kitId, resultData));
      Transition(LabResultStored, s.(kits := kits, results := results))
  }

  // ----- Routing -----

  datatype Request =
    | ProvisionCall(provision: ProvisionRequest)
    | GenerateCall(principal: Principal, quantity: int, notes: Option<string>)
    | ValidateCall(code: string)
    | EnrollCall(enroll: EnrollRequest)
    | DeactivateCall(principal: Principal, userId: nat)
    | LabResultCall(kitIdentifier: string, resultData: string)
  {
    /** The routes behind `isCompanyAdmin`. */
    predicate AdminOnly() { GenerateCall? || DeactivateCall? }
  }

  /** What the environment supplies to a request: the clock, the random
      fragments and the password hash. */
  datatype Env = Env(
    now: int,
    codeFragments: nat -> Frag6,
    emedFragment: Frag4,
    kitFragment: Frag8,
    passwordFragment: Frag6,
    hash: string -> string)

  /** One request against the store. Admin routes first pass the
      `isCompanyAdmin` check: a caller who is not an active admin of the
      principal's company gets 403 and no write, and an active admin reaches
      the handler itself. */
  function Step(s: Store, req: Request, env: Env): (t: Transition)
    ensures req.AdminOnly() && !IsCompanyAdmin(s, req.principal) ==>
      t == Transition(Rejected(403, AccessDenied), s)
    ensures req.AdminOnly() ==>
      (t.response == Rejected(403, AccessDenied) <==> !IsCompanyAdmin(s, req.principal))
    ensures req.GenerateCall? && IsCompanyAdmin(s, req.principal) ==>
      t == GenerateCodes(s, req.principal, req.quantity, req.notes, env.codeFragments)
    ensures req.DeactivateCall? && IsCompanyAdmin(s, req.principal) ==>
      t == Deactivate(s, req.principal, req.userId)
  {
    match req
    case ProvisionCall(r) => Provision(s, r, env.passwordFragment, env.hash)
    case GenerateCall(p, quantity, notes) =>
      if IsCompanyAdmin(s, p) then GenerateCodes(s, p, quantity, notes, env.codeFragments)
      else Transition(Rejected(403, AccessDenied), s)
    case ValidateCall(code) => ValidateCode(s, code, env.now)
    case EnrollCall(r) => Enroll(s, r, env.now, env.emedFragment, env.kitFragment)
    case DeactivateCall(p, userId) =>
      if IsCompanyAdmin(s, p) then Deactivate(s, p, userId)
      else Transition(Rejected(403, AccessDenied), s)
    case LabResultCall(kitIdentifier, resultData) =>
      RecordLabResult(s, kitIdentifier, resultData, env.now)
  }
}

=== FILE: identifiers.dfy ===
/** The generated identifiers: enrollment code strings, eMED identifiers,
lab-kit identifiers and temporary passwords.

Each is a fixed text around a random fragment. The server draws a fragment
by writing a random fraction in base 36, keeping a few digits after the
point and upper-casing them: at most a fixed number of characters of
`[0-9A-Z]` (fewer when the fraction has a short base-36 expansion). The
fragments are inputs of the model, typed by the subset types below.
*/
module Identifiers {
  import opened Naming

  predicate IsBase36Upper(c: char) { IsDigit(c) || IsUpperAscii(c) }

  predicate IsFragment(s: string, maxLen: nat) {
    |s| <= maxLen && forall i :: 0 <= i < |s| ==> IsBase36Upper(s[i])
  }

  /** Random fragment of an eMED identifier (at most four characters). */
  type Frag4 = s: string | IsFragment(s, 4)
  /** Random fragment of an enrollment code or temporary password (at most six characters). */
  type Frag6 = s: string | IsFragment(s, 6)
  /** Random fragment of a lab-kit identifier (at most eight characters). */
  type Frag8 = s: string | IsFragment(s, 8)

  function DigitChar(d: nat): (c: char)
    requires d < 10
    ensures IsDigit(c)
  {
    ('0' as int + d) as char
  }

  function DigitValue(c: char): nat
    requires IsDigit(c)
  {
    c as int - '0' as int
  }

  predicate AllDigits(s: string) {
    forall i :: 0 <= i < |s| ==> IsDigit(s[i])
  }

  /** The decimal rendering of an integer id, as a template literal prints it. */
  function DecimalString(n: nat): (r: string)
    ensures |r| >= 1 && AllDigits(r)
    decreases n
  {
    if n < 10 then [DigitChar(n)] else DecimalString(n / 10) + [DigitChar(n % 10)]
  }

  /** The value of a string of decimal digits. */
  function DecimalValue(s: string): nat
    requires AllDigits(s)
    decreases |s|
  {
    if s == [] then 0 else DecimalValue(s[..|s| - 1]) * 10 + DigitValue(s[|s| - 1])
  }

  /** Reading a rendered id back gives the id. */
  lemma {:induction false} DecimalRoundTrip(n: nat)
    ensures DecimalValue(DecimalString(n)) == n
    decreases n
  {
    var s := DecimalString(n);
    if n < 10 {
      assert s[..|s| - 1] == [];
    } else {
      DecimalRoundTrip(n / 10);
      assert s[..|s| - 1] == DecimalString(n / 10);
    }
  }

  lemma DecimalStringInjective(a: nat, b: nat)
    requires DecimalString(a) == DecimalString(b)
    ensures a == b
  {
    DecimalRoundTrip(a);
    DecimalRoundTrip(b);
  }

  const CodeInfix := "-GLP1-"

  /** The company prefix, the fixed text "-GLP1-", then the random part. */
  function EnrollmentCodeString(prefix: string, fragment: Frag6): string {
    prefix + CodeInfix + fragment
  }

  /** "eMED-", the company id in decimal, a dash, then the random part. */
  function EmedIdentifier(companyId: nat, fragment: Frag4): string {
    "eMED-" + DecimalString(companyId) + "-" + fragment
  }

  /** "KIT-" followed by the random part. */
  function KitIdentifier(fragment: Frag8): string {
    "KIT-" + fragment
  }

  /** "eMed" followed by the random part. */
  function TempPassword(fragment: Frag6): string {
    "eMed" + fragment
  }

  /** The text after the last '-' of `s` (all of `s` when it has none). */
  function AfterLastDash(s: string): (r: string)
    ensures |r| <= |s| && r == s[|s| - |r|..]
    ensures '-' !in r
    ensures |r| < |s| ==> s[|s| - |r| - 1] == '-'
    decreases |s|
  {
    if s == [] then []
    else if s[|s| - 1] == '-' then []
    else
      var init, last := s[..|s| - 1], s[|s| - 1];
      var r' := AfterLastDash(init);
      assert s == init + [last];
      assert s[|s| - |r'| - 1..] == init[|init| - |r'|..] + [last];
      r' + [last]
  }

  lemma {:induction false} AfterLastDashOfDashFree(a: string, b: string)
    requires '-' !in b
    ensures AfterLastDash(a + "-" + b) == b
    decreases |b|
  {
    var s := a + "-" + b;
    if b == [] {
      assert s[|s| - 1] == '-';
    } else {
      assert s[..|s| - 1] == a + "-" + b[..|b| - 1];
      AfterLastDashOfDashFree(a, b[..|b| - 1]);
      assert s[|s| - 1] == b[|b| - 1];
      assert b[..|b| - 1] + [b[|b| - 1]] == b;
    }
  }

  lemma FragmentHasNoDash(f: string, maxLen: nat)
    requires IsFragment(f, maxLen)
    ensures '-' !in f
  {
  }

  /** The random part of an enrollment code is what follows its last dash,
      so it can be read back from the code. */
  lemma CodeFragmentRoundTrip(prefix: string, fragment: Frag6)
    ensures AfterLastDash(EnrollmentCodeString(prefix, fragment)) == fragment
  {
    FragmentHasNoDash(fragment, 6);
    assert EnrollmentCodeString(prefix, fragment) == (prefix + "-GLP1") + "-" + fragment;
    AfterLastDashOfDashFree(prefix + "-GLP1", fragment);
  }

  /** Two codes coincide only when prefix and random part both do. */
  lemma CodeStringInjective(p1: string, f1: Frag6, p2: string, f2: Frag6)
    requires EnrollmentCodeString(p1, f1) == EnrollmentCodeString(p2, f2)
    ensures p1 == p2 && f1 == f2
  {
    CodeFragmentRoundTrip(p1, f1);
    CodeFragmentRoundTrip(p2, f2);
    var c := EnrollmentCodeString(p1, f1);
    assert p1 == c[..|p1|] && p2 == c[..|p2|];
  }

  /** Every enrollment code is `{prefix}-GLP1-{fragment}` with a fragment of at
      most six characters of `[0-9A-Z]`: the text after its last dash is such
      a fragment and is preceded by "-GLP1-". */
  lemma CodeShape(prefix: string, fragment: Frag6)
    ensures var c := EnrollmentCodeString(prefix, fragment);
      var f := AfterLastDash(c);
      && IsFragment(f, 6)
      && |c| >= |f| + 6
      && c[|c| - |f| - 6..|c| - |f|] == CodeInfix
  {
    CodeFragmentRoundTrip(prefix, fragment);
    var c := EnrollmentCodeString(prefix, fragment);
    assert c[|c| - |fragment| - 6..|c| - |fragment|] == CodeInfix;
  }

  /** The length of the run of decimal digits that `s` starts with. */
  function LeadingDigits(s: string): (n: nat)
    ensures n <= |s|
    decreases |s|
  {
    if s != [] && IsDigit(s[0]) then 1 + LeadingDigits(s[1..]) else 0
  }

  lemma {:induction false} LeadingDigitsOf(d: string, rest: string)
    requires AllDigits(d)
    requires rest != [] && !IsDigit(rest[0])
    ensures LeadingDigits(d + rest) == |d|
    decreases |d|
  {
    if d == [] {
      assert d + rest == rest;
    } else {
      assert (d + rest)[1..] == d[1..] + rest;
      LeadingDigitsOf(d[1..], rest);
    }
  }

  /** eMED identifiers of different companies never coincide, and within a
      company they differ exactly when their random parts do. */
  lemma {:induction false} EmedIdentifierInjective(c1: nat, f1: Frag4, c2: nat, f2: Frag4)
    requires EmedIdentifier(c1, f1) == EmedIdentifier(c2, f2)
    ensures c1 == c2 && f1 == f2
  {
    var d1, d2 := DecimalString(c1), DecimalString(c2);
    var e := EmedIdentifier(c1, f1);
    assert e[5..] == d1 + ("-" + f1);
    assert e[5..] == d2 + ("-" + f2);
    LeadingDigitsOf(d1, "-" + f1);
    LeadingDigitsOf(d2, "-" + f2);
    assert d1 == e[5..5 + |d1|] == d2;
    DecimalStringInjective(c1, c2);
    assert f1 == e[6 + |d1|..] == f2;
  }

  /** `e` reads as "eMED-", the decimal digits of `companyId`, "-" and a
      fragment of at most four `[0-9A-Z]` characters. */
  predicate IsEmedIdentifierFor(e: string, companyId: nat) {
    var d := DecimalString(companyId);
    && |e| >= 6 + |d|
    && e[..5] == "eMED-"
    && AllDigits(e[5..5 + |d|])
    && DecimalValue(e[5..5 + |d|]) == companyId
    && e[5 + |d|] == '-'
    && IsFragment(e[6 + |d|..], 4)
  }

  /** An eMED identifier reads back as its company id and random part. */
  lemma EmedIdentifierShape(companyId: nat, fragment: Frag4)
    ensures var e := EmedIdentifier(companyId, fragment);
      && IsEmedIdentifierFor(e, companyId)
      && e[6 + |DecimalString(companyId)|..] == fragment
  {
    var e := EmedIdentifier(companyId, fragment);
    var d := DecimalString(companyId);
    assert e[5..5 + |d|] == d;
    assert e[6 + |d|..] == fragment;
    DecimalRoundTrip(companyId);
  }

  /** `k` reads as "KIT-" and a fragment of at most eight `[0-9A-Z]` characters. */
  predicate IsKitIdentifier(k: string) {
    |k| >= 4 && k[..4] == "KIT-" && IsFragment(k[4..], 8)
  }

  lemma KitIdentifierShape(fragment: Frag8)
    ensures IsKitIdentifier(KitIdentifier(fragment))
    ensures KitIdentifier(fragment)[4..] == fragment
  {
    assert KitIdentifier(fragment)[4..] == fragment;
  }

  lemma KitIdentifierInjective(f1: Frag8, f2: Frag8)
    requires KitIdentifier(f1) == KitIdentifier(f2)
    ensures f1 == f2
  {
    assert f1 == KitIdentifier(f1)[4..];
  }
}

=== FILE: lifecycle.dfy ===
/** Properties of the handlers taken together: the enrollment-code state
machine, the links between codes, users, kits and lab results, and the
request sequences of the enrollment workflow.
*/
module Lifecycle {
  import opened Tables
  import opened Schema
  import opened Identifiers
  import opened Handlers

  // ----- Code status only moves active -> used | expired -----

  /** The allowed moves of a code's status: stay put, or leave `active`. */
  predicate StatusStep(a: CodeStatus, b: CodeStatus) {
    a == b || (a == Active && b != Active)
  }

  /** Codes are never deleted, their status only leaves `active`, and a code
      that is `used` or `expired` is never written again. */
  ghost predicate CodesEvolve(s: Store, s': Store) {
    && (forall id :: id in s.codes.rows ==> id in s'.codes.rows)
    && (forall id :: id in s.codes.rows ==>
          StatusStep(s.codes.rows[id].status, s'.codes.rows[id].status))
    && (forall id :: id in s.codes.rows && s.codes.rows[id].status != Active ==>
          s'.codes.rows[id] == s.codes.rows[id])
  }

  lemma CodesEvolveChain(s0: Store, s1: Store, s2: Store)
    requires CodesEvolve(s0, s1) && CodesEvolve(s1, s2)
    ensures CodesEvolve(s0, s2)
  {
  }

  /** Writing a row under an `active` code's id is a status step. */
  lemma ReplacedActiveCodeEvolves(s: Store, s': Store, id: nat, row: EnrollmentCode)
    requires id in s.codes.rows && s.codes.rows[id].status == Active
    requires Replaced(s.codes, s'.codes, id, row)
    ensures CodesEvolve(s, s')
  {
  }

  /** Appending code rows moves no existing code. */
  lemma AppendedCodesEvolve(s: Store, s': Store, added: seq<EnrollmentCode>)
    requires Appended(s.codes, s'.codes, added)
    ensures CodesEvolve(s, s')
  {
  }

  lemma ValidateCodesEvolve(s: Store, code: string, now: int)
    ensures CodesEvolve(s, ValidateCode(s, code, now).store)
  {
    var t := ValidateCode(s, code, now);
    var f := Find(s.codes, ValidatableCode(s, code));
    if f.Some? && IsExpired(s.codes.rows[f.value], now) {
      var row := s.codes.rows[f.value];
      ReplacedActiveCodeEvolves(s, t.store, f.value, row.(status := Expired));
    } else {
      assert t.store == s;
    }
  }

  lemma EnrollCodesEvolve(s: Store, req: EnrollRequest, now: int, f4: Frag4, f8: Frag8)
    ensures CodesEvolve(s, Enroll(s, req, now, f4, f8).store)
  {
    var t := Enroll(s, req, now, f4, f8);
    var f := Find(s.codes, RedeemableCode(req.code));
    if f.Some? {
      var row := s.codes.rows[f.value];
      ReplacedActiveCodeEvolves(s, t.store, f.value,
        row.(status := Used, usedAt := Some(now), usedByUserId := Some(s.users.next)));
    } else {
      assert t.store == s;
    }
  }

  /** Every request moves codes only along `active -> used` and
      `active -> expired`. */
  lemma StepCodesEvolve(s: Store, req: Request, env: Env)
    ensures CodesEvolve(s, Step(s, req, env).store)
  {
    var t := Step(s, req, env);
    match req
    case ProvisionCall(r) =>
      assert t.store.codes == s.codes;
    case GenerateCall(p, quantity, notes) =>
      if IsCompanyAdmin(s, p) && t.response.CodesGenerated? {
        var r := t.response;
        assert t == GenerateCodes(s, p, quantity, notes, env.codeFragments);
        AppendedCodesEvolve(s, t.store, BatchCodes(r.codes, p.companyId, r.programId, p.adminId, r.batchId));
      } else {
        assert t.store.codes == s.codes;
      }
    case ValidateCall(code) =>
      ValidateCodesEvolve(s, code, env.now);
      assert t == ValidateCode(s, code, env.now);
    case EnrollCall(r) =>
      EnrollCodesEvolve(s, r, env.now, env.emedFragment, env.kitFragment);
      assert t == Enroll(s, r, env.now, env.emedFragment, env.kitFragment);
    case DeactivateCall(p, userId) =>
      assert t.store.codes == s.codes;
    case LabResultCall(kitIdentifier, resultData) =>
      assert t.store.codes == s.codes;
  }

  datatype Call = Call(request: Request, env: Env)

  /** The store after serving `calls` one after the other. */
  function Run(s: Store, calls: seq<Call>): Store
    decreases |calls|
  {
    if calls == [] then s
    else Run(Step(s, calls[0].request, calls[0].env).store, calls[1..])
  }

  /** Over any sequence of requests, no code returns to `active`, and a
      `used` or `expired` code keeps its row unchanged. */
  lemma {:induction false} RunCodesEvolve(s: Store, calls: seq<Call>)
    ensures CodesEvolve(s, Run(s, calls))
    decreases |calls|
  {
    if calls != [] {
      var s1 := Step(s, calls[0].request, calls[0].env).store;
      StepCodesEvolve(s, calls[0].request, calls[0].env);
      RunCodesEvolve(s1, calls[1..]);
      CodesEvolveChain(s, s1, Run(s1, calls[1..]));
    }
  }

  // ----- Links between codes, users, kits and results -----

  /** A user points at a used code that names the user as its redeemer. */
  ghost predicate UserLinked(s: Store, u: nat)
    requires u in s.users.rows
  {
    var c := s.users.rows[u].enrollmentCodeId;
    && c in s.codes.rows
    && s.codes.rows[c].status == Used
    && s.codes.rows[c].usedByUserId == Some(u)
  }

  /** A used code names an existing user that was enrolled with it. */
  ghost predicate CodeLinked(s: Store, c: nat)
    requires c in s.codes.rows
  {
    var redeemer := s.codes.rows[c].usedByUserId;
    && redeemer.Some?
    && redeemer.value in s.users.rows
    && s.users.rows[redeemer.value].enrollmentCodeId == c
  }

  /** A lab result belongs to an existing kit and to that kit's user. */
  ghost predicate ResultLinked(s: Store, r: nat)
    requires r in s.results.rows
  {
    var res := s.results.rows[r];
    res.kitId in s.kits.rows && s.kits.rows[res.kitId].userId == res.userId
  }

  /** A processed kit has at least one stored lab result. */
  ghost predicate ProcessedHasResult(s: Store, k: nat)
    requires k in s.kits.rows
  {
    s.kits.rows[k].status == Processed ==>
      exists r :: r in s.results.rows && s.results.rows[r].kitId == k
  }

  /** Used codes and enrolled users correspond one to one. */
  ghost predicate CodesUsersLinked(s: Store) {
    && (forall u :: u in s.users.rows ==> UserLinked(s, u))
    && (forall c :: c in s.codes.rows && s.codes.rows[c].status == Used ==> CodeLinked(s, c))
  }

  /** Every kit has a user, every result belongs to its kit's user, and no
      kit is processed without a result. */
  ghost predicate KitsLinked(s: Store) {
    && (forall k :: k in s.kits.rows ==> s.kits.rows[k].userId in s.users.rows)
    && (forall k :: k in s.kits.rows ==> ProcessedHasResult(s, k))
    && (forall r :: r in s.results.rows ==> ResultLinked(s, r))
  }

  /** The store invariant. */
  ghost predicate Linked(s: Store) {
    CodesUsersLinked(s) && KitsLinked(s)
  }

  /** The code/user half of the invariant reads only the user and code tables. */
  lemma CodesUsersFrame(s: Store, s': Store)
    requires CodesUsersLinked(s)
    requires s'.users == s.users && s'.codes == s.codes
    ensures CodesUsersLinked(s')
  {
    forall u | u in s'.users.rows ensures UserLinked(s', u) {
      assert UserLinked(s, u);
    }
    forall c | c in s'.codes.rows && s'.codes.rows[c].status == Used ensures CodeLinked(s', c) {
      assert CodeLinked(s, c);
    }
  }

  /** The kit half of the invariant reads the kit and result tables and only
      which user ids exist. */
  lemma KitsFrame(s: Store, s': Store)
    requires KitsLinked(s)
    requires s'.kits == s.kits && s'.results == s.results
    requires forall u :: u in s.users.rows ==> u in s'.users.rows
    ensures KitsLinked(s')
  {
    forall k | k in s'.kits.rows ensures ProcessedHasResult(s', k) {
      assert ProcessedHasResult(s, k);
    }
    forall r | r in s'.results.rows ensures ResultLinked(s', r) {
      assert ResultLinked(s, r);
    }
  }

  lemma InitialStoreLinked(programs: Table<Program>)
    ensures Linked(InitialStore(programs))
  {
  }

  /** Under the invariant, a code produced at most one enrolled user. */
  lemma OneUserPerCode(s: Store, u1: nat, u2: nat)
    requires Linked(s)
    requires u1 in s.users.rows && u2 in s.users.rows
    requires s.users.rows[u1].enrollmentCodeId == s.users.rows[u2].enrollmentCodeId
    ensures u1 == u2
  {
    assert UserLinked(s, u1) && UserLinked(s, u2);
  }

  lemma ProvisionPreservesLinked(s: Store, req: ProvisionRequest, f6: Frag6, hash: string -> string)
    requires Linked(s)
    ensures Linked(Provision(s, req, f6, hash).store)
  {
    var s' := Provision(s, req, f6, hash).store;
    CodesUsersFrame(s, s');
    KitsFrame(s, s');
  }

  /** Rows added to a code table are `active` when every added row is. */
  lemma AppendedRowsActive(t: Table<EnrollmentCode>, t': Table<EnrollmentCode>,
                           added: seq<EnrollmentCode>)
    requires Appended(t, t', added)
    requires forall j :: 0 <= j < |added| ==> added[j].status == Active
    ensures forall c :: c in t'.rows && c !in t.rows ==> t'.rows[c].status == Active
  {
    forall c | c in t'.rows && c !in t.rows
      ensures t'.rows[c].status == Active
    {
      var j := c - t.next;
      assert t'.rows[t.next + j] == added[j];
    }
  }

  lemma GeneratePreservesLinked(s: Store, p: Principal, quantity: int, notes: Option<string>,
                                fragments: nat -> Frag6)
    requires IsCompanyAdmin(s, p)
    requires Linked(s)
    ensures Linked(GenerateCodes(s, p, quantity, notes, fragments).store)
  {
    var t := GenerateCodes(s, p, quantity, notes, fragments);
    if t.response.CodesGenerated? {
      var r := t.response;
      var added := BatchCodes(r.codes, p.companyId, r.programId, p.adminId, r.batchId);
      AppendedRowsActive(s.codes, t.store.codes, added);
      FreshActiveCodesKeepLinked(s, t.store);
    } else {
      assert t.store == s;
    }
  }

  /** Adding `active` code rows (and batch rows) keeps the invariant. */
  lemma FreshActiveCodesKeepLinked(s: Store, s': Store)
    requires Linked(s)
    requires forall c :: c in s.codes.rows ==> c in s'.codes.rows && s'.codes.rows[c] == s.codes.rows[c]
    requires forall c :: c in s'.codes.rows && c !in s.codes.rows ==> s'.codes.rows[c].status == Active
    requires s' == s.(batches := s'.batches, codes := s'.codes)
    ensures Linked(s')
  {
    KitsFrame(s, s');
    forall c | c in s'.codes.rows && s'.codes.rows[c].status == Used
      ensures CodeLinked(s', c)
    {
      assert CodeLinked(s, c);
    }
    forall u | u in s'.users.rows
      ensures UserLinked(s', u)
    {
      assert UserLinked(s, u);
    }
  }

  lemma ValidatePreservesLinked(s: Store, code: string, now: int)
    requires Linked(s)
    ensures Linked(ValidateCode(s, code, now).store)
  {
    var f := Find(s.codes, ValidatableCode(s, code));
    if f.Some? && IsExpired(s.codes.rows[f.value], now) {
      var id := f.value;
      var s' := ValidateCode(s, code, now).store;
      ExpireKeepsLinked(s, s', id);
    }
  }

  /** Marking an active code expired, and changing nothing else, keeps the
      store invariant. */
  lemma ExpireKeepsLinked(s: Store, s': Store, id: nat)
    requires Linked(s)
    requires id in s.codes.rows && s.codes.rows[id].status == Active
    requires Replaced(s.codes, s'.codes, id, s.codes.rows[id].(status := Expired))
    requires s' == s.(codes := s'.codes)
    ensures Linked(s')
  {
    KitsFrame(s, s');
    forall u | u in s'.users.rows
      ensures UserLinked(s', u)
    {
      assert UserLinked(s, u);
    }
    forall c | c in s'.codes.rows && s'.codes.rows[c].status == Used
      ensures CodeLinked(s', c)
    {
      assert CodeLinked(s, c);
    }
  }

  lemma EnrollPreservesLinked(s: Store, req: EnrollRequest, now: int, f4: Frag4, f8: Frag8)
    requires Linked(s)
    ensures Linked(Enroll(s, req, now, f4, f8).store)
  {
    var t := Enroll(s, req, now, f4, f8);
    var s' := t.store;
    var f := Find(s.codes, RedeemableCode(req.code));
    if f.Some? {
      var id := f.value;
      var uid := s.users.next;
      assert s.codes.rows[id].status == Active;
      assert uid !in s.users.rows;
      assert s'.users.rows[uid].enrollmentCodeId == id;
      forall u | u in s'.users.rows
        ensures UserLinked(s', u)
      {
        if u != uid {
          assert UserLinked(s, u);
        }
      }
      forall c | c in s'.codes.rows && s'.codes.rows[c].status == Used
        ensures CodeLinked(s', c)
      {
        if c != id {
          assert CodeLinked(s, c);
        }
      }
      forall k | k in s'.kits.rows
        ensures s'.kits.rows[k].userId in s'.users.rows
        ensures ProcessedHasResult(s', k)
      {
        if k in s.kits.rows {
          assert ProcessedHasResult(s, k);
        }
      }
      forall r | r in s'.results.rows
        ensures ResultLinked(s', r)
      {
        assert ResultLinked(s, r);
      }
    }
  }

  lemma DeactivatePreservesLinked(s: Store, p: Principal, userId: nat)
    requires IsCompanyAdmin(s, p)
    requires Linked(s)
    ensures Linked(Deactivate(s, p, userId).store)
  {
    var t := Deactivate(s, p, userId);
    if BelongsTo(s, userId, p.companyId) {
      UserStatusKeepsLinked(s, t.store, userId);
    } else {
      assert t.store == s;
    }
  }

  /** Marking one user inactive, and changing nothing else, keeps the invariant. */
  lemma UserStatusKeepsLinked(s: Store, s': Store, u: nat)
    requires Linked(s)
    requires u in s.users.rows
    requires Replaced(s.users, s'.users, u, s.users.rows[u].(status := UserInactive))
    requires s' == s.(users := s'.users)
    ensures Linked(s')
  {
    KitsFrame(s, s');
    forall v | v in s'.users.rows
      ensures UserLinked(s', v)
    {
      assert UserLinked(s, v);
    }
    forall c | c in s'.codes.rows && s'.codes.rows[c].status == Used
      ensures CodeLinked(s', c)
    {
      assert CodeLinked(s, c);
    }
  }

  /** Marking one kit processed while adding a result for it keeps the invariant. */
  lemma ProcessKitKeepsLinked(s: Store, s': Store, id: nat, processedAt: Option<int>, data: string)
    requires Linked(s)
    requires id in s.kits.rows
    requires Replaced(s.kits, s'.kits, id, s.kits.rows[id].(status := Processed, processedAt := processedAt))
    requires Appended(s.results, s'.results, [LabResult(s.kits.rows[id].userId, id, data)])
    requires s' == s.(kits := s'.kits, results := s'.results)
    ensures Linked(s')
  {
    CodesUsersFrame(s, s');
    ProcessedKitsKeepUsersAndResults(s, s', id, processedAt, data);
    ResultsStayLinked(s, s', id, processedAt, data);
  }

  lemma ProcessedKitsKeepUsersAndResults(s: Store, s': Store, id: nat, processedAt: Option<int>,
                                         data: string)
    requires KitsLinked(s)
    requires id in s.kits.rows
    requires Replaced(s.kits, s'.kits, id, s.kits.rows[id].(status := Processed, processedAt := processedAt))
    requires Appended(s.results, s'.results, [LabResult(s.kits.rows[id].userId, id, data)])
    requires s'.users == s.users
    ensures forall k :: k in s'.kits.rows ==> s'.kits.rows[k].userId in s'.users.rows
    ensures forall k :: k in s'.kits.rows ==> ProcessedHasResult(s', k)
  {
    var rid := s.results.next;
    var added := [LabResult(s.kits.rows[id].userId, id, data)];
    assert s'.results.rows[rid] == added[0];
    forall k | k in s'.kits.rows
      ensures s'.kits.rows[k].userId in s'.users.rows
      ensures ProcessedHasResult(s', k)
    {
      if k != id {
        KitResultKept(s, s', k);
      }
    }
  }

  lemma ResultsStayLinked(s: Store, s': Store, id: nat, processedAt: Option<int>, data: string)
    requires KitsLinked(s)
    requires id in s.kits.rows
    requires Replaced(s.kits, s'.kits, id, s.kits.rows[id].(status := Processed, processedAt := processedAt))
    requires Appended(s.results, s'.results, [LabResult(s.kits.rows[id].userId, id, data)])
    ensures forall r :: r in s'.results.rows ==> ResultLinked(s', r)
  {
    var rid := s.results.next;
    var added := [LabResult(s.kits.rows[id].userId, id, data)];
    assert s'.results.rows[rid] == added[0];
    forall r | r in s'.results.rows
      ensures ResultLinked(s', r)
    {
      if r != rid {
        assert ResultLinked(s, r);
      }
    }
  }

  lemma RecordLabResultPreservesLinked(s: Store, kitIdentifier: string, resultData: string, now: int)
    requires Linked(s)
    ensures Linked(RecordLabResult(s, kitIdentifier, resultData, now).store)
  {
    var s' := RecordLabResult(s, kitIdentifier, resultData, now).store;
    var f := Find(s.kits, KitNamed(kitIdentifier));
    if f.Some? {
      ProcessKitKeepsLinked(s, s', f.value, Some(now), resultData);
    }
  }

  /** A kit whose row and results are kept keeps its processed-has-result fact. */
  lemma KitResultKept(s: Store, s': Store, k: nat)
    requires k in s.kits.rows && k in s'.kits.rows && s'.kits.rows[k] == s.kits.rows[k]
    requires forall r :: r in s.results.rows ==> r in s'.results.rows && s'.results.rows[r] == s.results.rows[r]
    requires ProcessedHasResult(s, k)
    ensures ProcessedHasResult(s', k)
  {
    if s.kits.rows[k].status == Processed {
      var r :| r in s.results.rows && s.results.rows[r].kitId == k;
      assert s'.results.rows[r].kitId == k;
    }
  }

  /** Every request keeps the store invariant. */
  lemma StepPreservesLinked(s: Store, req: Request, env: Env)
    requires Linked(s)
    ensures Linked(Step(s, req, env).store)
  {
    var t := Step(s, req, env);
    match req
    case ProvisionCall(r) =>
      ProvisionPreservesLinked(s, r, env.passwordFragment, env.hash);
      assert t == Provision(s, r, env.passwordFragment, env.hash);
    case GenerateCall(p, quantity, notes) =>
      if IsCompanyAdmin(s, p) {
        GeneratePreservesLinked(s, p, quantity, notes, env.codeFragments);
        assert t == GenerateCodes(s, p, quantity, notes, env.codeFragments);
      } else {
        assert t.store == s;
      }
    case ValidateCall(code) =>
      ValidatePreservesLinked(s, code, env.now);
      assert t == ValidateCode(s, code, env.now);
    case EnrollCall(r) =>
      EnrollPreservesLinked(s, r, env.now, env.emedFragment, env.kitFragment);
      assert t == Enroll(s, r, env.now, env.emedFragment, env.kitFragment);
    case DeactivateCall(p, userId) =>
      if IsCompanyAdmin(s, p) {
        DeactivatePreservesLinked(s, p, userId);
        assert t == Deactivate(s, p, userId);
      } else {
        assert t.store == s;
      }
    case LabResultCall(kitIdentifier, resultData) =>
      RecordLabResultPreservesLinked(s, kitIdentifier, resultData, env.now);
      assert t == RecordLabResult(s, kitIdentifier, resultData, env.now);
  }

  /** The invariant holds after any sequence of requests. */
  lemma {:induction false} RunPreservesLinked(s: Store, calls: seq<Call>)
    requires Linked(s)
    ensures Linked(Run(s, calls))
    decreases |calls|
  {
    if calls != [] {
      StepPreservesLinked(s, calls[0].request, calls[0].env);
      RunPreservesLinked(Step(s, calls[0].request, calls[0].env).store, calls[1..]);
    }
  }
}

=== FILE: naming.dfy ===
/** The pure string helpers of the server: the portal name derived from a
company name, the three-letter code prefix, and the employee estimate
derived from a company's size bucket.

Case mapping is ASCII only: letters outside A-Z/a-z keep their case.
*/
module Naming {

  predicate IsUpperAscii(c: char) { 'A' <= c <= 'Z' }
  predicate IsLowerAscii(c: char) { 'a' <= c <= 'z' }
  predicate IsDigit(c: char) { '0' <= c <= '9' }

  function LowerChar(c: char): char {
    if IsUpperAscii(c) then (c as int + 32) as char else c
  }

  function UpperChar(c: char): char {
    if IsLowerAscii(c) then (c as int - 32) as char else c
  }

  /** The characters a portal name may contain: `[a-z0-9]`. */
  predicate IsPortalChar(c: char) { IsLowerAscii(c) || IsDigit(c) }

  predicate IsPortalName(s: string) {
    forall i :: 0 <= i < |s| ==> IsPortalChar(s[i])
  }

  /** The company name lower-cased, with every character other than an
      ASCII lower-case letter or a decimal digit removed. */
  function PortalName(name: string): (r: string)
    ensures IsPortalName(r)
    ensures |r| <= |name|
  {
    if name == [] then []
    else
      var c := LowerChar(name[0]);
      (if IsPortalChar(c) then [c] else []) + PortalName(name[1..])
  }

  const PortalBase := "https://emed-care.com/portal/"

  function PortalUrl(companyName: string): string {
    PortalBase + PortalName(companyName)
  }

  /** A string is its own portal name exactly when it already consists of
      `[a-z0-9]` only. */
  lemma {:induction false} PortalNameFixpoint(s: string)
    ensures PortalName(s) == s <==> IsPortalName(s)
  {
    if s != [] {
      PortalNameFixpoint(s[1..]);
      var c := LowerChar(s[0]);
      if IsPortalChar(s[0]) {
        assert c == s[0];
        if IsPortalName(s) {
          assert IsPortalName(s[1..]);
          assert PortalName(s) == [s[0]] + s[1..] == s;
        }
      } else {
        assert !IsPortalName(s);
        if IsPortalChar(c) {
          assert PortalName(s)[0] == c != s[0];
        } else {
          assert |PortalName(s)| == |PortalName(s[1..])| < |s|;
        }
      }
    }
  }

  /** On one character, normalisation lower-cases it and keeps it exactly
      when the result is a portal character. Together with
      `PortalNameConcat` this determines `PortalName` on every string. */
  lemma PortalNameChar(c: char)
    ensures PortalName([c]) == (if IsPortalChar(LowerChar(c)) then [LowerChar(c)] else [])
  {
    assert [c][1..] == [];
  }

  /** Normalising a portal name a second time changes nothing. */
  lemma PortalNameIdempotent(s: string)
    ensures PortalName(PortalName(s)) == PortalName(s)
  {
    PortalNameFixpoint(PortalName(s));
  }

  /** The portal name of a concatenation is the concatenation of the portal names. */
  lemma {:induction false} PortalNameConcat(a: string, b: string)
    ensures PortalName(a + b) == PortalName(a) + PortalName(b)
  {
    if a != [] {
      assert (a + b)[0] == a[0];
      assert (a + b)[1..] == a[1..] + b;
      PortalNameConcat(a[1..], b);
    } else {
      assert a + b == b;
    }
  }

  function Min(a: int, b: int): int { if a <= b then a else b }

  /** The first three characters of the company name (all of it when
      shorter), upper-cased. */
  function CompanyPrefix(companyName: string): (r: string)
    ensures |r| == Min(3, |companyName|)
    ensures forall i :: 0 <= i < |r| ==> !IsLowerAscii(r[i])
    ensures forall i :: 0 <= i < |r| ==> LowerChar(r[i]) == LowerChar(companyName[i])
  {
    var head := companyName[..Min(3, |companyName|)];
    seq(|head|, i requires 0 <= i < |head| => UpperChar(head[i]))
  }

  /** The size buckets offered at provisioning, smallest first. */
  const SizeBuckets: seq<string> := ["1-50", "51-200", "201-500", "501-1000", "1001+"]

  /** The employee count assumed for a company of the given size bucket
      (the switch in the metrics route); unknown buckets count as 100. */
  function EstimatedEmployees(size: string): (n: nat)
    ensures size !in SizeBuckets <==> n == 100
    ensures size in SizeBuckets ==> 50 <= n <= 2000
    ensures size == "1-50" ==> n == 50
    ensures size == "51-200" ==> n == 200
    ensures size == "201-500" ==> n == 500
    ensures size == "501-1000" ==> n == 1000
    ensures size == "1001+" ==> n == 2000
  {
    match size
    case "1-50" => 50
    case "51-200" => 200
    case "201-500" => 500
    case "501-1000" => 1000
    case "1001+" => 2000
    case _ => 100
  }

  /** Larger buckets yield strictly larger estimates. */
  lemma EstimateIncreasesWithBucket(i: nat, j: nat)
    requires i < j < |SizeBuckets|
    ensures EstimatedEmployees(SizeBuckets[i]) < EstimatedEmployees(SizeBuckets[j])
  {
  }
}

=== FILE: schema.dfy ===
/** The rows of the relational store and the store itself.

Each relation is an id-indexed table. Columns the handlers never read or
write (creation timestamps, `created_at` orderings, admin `last_login`) are
not part of the rows. Column defaults the handlers rely on are written out
where rows are inserted: a new code is `active` with no expiry, a new admin is
active, a new enrolled user is `active` with `enrollment_date = NOW()`.
*/
module Schema {
  import opened Tables

  datatype CodeStatus = Active | Used | Expired
  datatype UserStatus = UserActive | UserInactive
  datatype KitStatus = Ordered | Shipped | Delivered | Processed

  datatype Company = Company(name: string, address: string, industry: string, size: string)

  datatype Admin = Admin(
    companyId: nat,
    name: string,
    email: string,
    title: string,
    passwordHash: string,
    active: bool)

  datatype Program = Program(code: string, name: string, description: string, active: bool)

  datatype CodeBatch = CodeBatch(
    companyId: nat,
    programId: nat,
    quantity: int,
    createdBy: nat,
    notes: string)

  datatype EnrollmentCode = EnrollmentCode(
    code: string,
    companyId: nat,
    programId: nat,
    createdBy: nat,
    batchId: nat,
    status: CodeStatus,
    usedAt: Option<int>,
    usedByUserId: Option<nat>,
    expiresAt: Option<int>)

  datatype EnrolledUser = EnrolledUser(
    companyId: nat,
    programId: nat,
    enrollmentCodeId: nat,
    name: string,
    email: string,
    phone: string,
    dateOfBirth: string,
    address: string,
    emedIdentifier: string,
    status: UserStatus,
    enrollmentDate: int)

  datatype LabKit = LabKit(
    userId: nat,
    kitIdentifier: string,
    status: KitStatus,
    processedAt: Option<int>)

  datatype LabResult = LabResult(userId: nat, kitId: nat, resultData: string)

  datatype Store = Store(
    companies: Table<Company>,
    admins: Table<Admin>,
    programs: Table<Program>,
    batches: Table<CodeBatch>,
    codes: Table<EnrollmentCode>,
    users: Table<EnrolledUser>,
    kits: Table<LabKit>,
    results: Table<LabResult>)

  /** The store before any request, holding only the reference programs
      (the GLP1 program is set up outside the request handlers). */
  function InitialStore(programs: Table<Program>): Store {
    Store(EmptyTable(), EmptyTable(), programs, EmptyTable(),
          EmptyTable(), EmptyTable(), EmptyTable(), EmptyTable())
  }
}

=== FILE: tables.dfy ===
/** Id-indexed tables: the shape every relation of the store takes.

A table maps integer ids to rows and carries the counter from which the
next fresh id is drawn (a serial column). Every id in use lies below the
counter, so a fresh id never collides with an existing row.
*/
module Tables {

  datatype Option<+T> = None | Some(value: T) {
    function GetOr(default: T): T {
      match this
      case Some(v) => v
      case None => default
    }
  }

  datatype RawTable<R> = RawTable(rows: map<nat, R>, next: nat)

  /** A table whose every id was drawn from its counter. */
  type Table<R> = t: RawTable<R> | forall k :: k in t.rows ==> k < t.next
    witness RawTable(map[], 1)

  /** An empty table; serial ids start at 1. */
  function EmptyTable<R>(): (t: Table<R>)
    ensures t.rows == map[]
  {
    RawTable(map[], 1)
  }

  /** `t'` is `t` with `added` stored, in order, under the fresh ids
      `t.next`, `t.next + 1`, ...; no existing row changes. */
  ghost predicate Appended<R>(t: Table<R>, t': Table<R>, added: seq<R>) {
    && t'.next == t.next + |added|
    && (forall k :: k in t'.rows <==> k in t.rows || t.next <= k < t'.next)
    && (forall k :: k in t.rows ==> t'.rows[k] == t.rows[k])
    && (forall j :: 0 <= j < |added| ==> t'.rows[t.next + j] == added[j])
  }

  /** `t'` is `t` with the row under `id` replaced by `row` and nothing else changed. */
  ghost predicate Replaced<R>(t: Table<R>, t': Table<R>, id: nat, row: R) {
    && t'.next == t.next
    && t'.rows.Keys == t.rows.Keys
    && id in t'.rows
    && t'.rows[id] == row
    && (forall k :: k in t.rows && k != id ==> t'.rows[k] == t.rows[k])
  }

  /** `id` is the least id whose row satisfies `p`. */
  ghost predicate IsFirst<R>(t: Table<R>, p: R -> bool, id: nat) {
    && id in t.rows
    && p(t.rows[id])
    && (forall k :: k in t.rows && k < id ==> !p(t.rows[k]))
  }

  /** A row that an append added is the added row at its offset. */
  lemma AppendedRow<R>(t: Table<R>, t': Table<R>, added: seq<R>, id: nat)
    requires Appended(t, t', added)
    requires id in t'.rows && id !in t.rows
    ensures t.next <= id < t.next + |added|
    ensures t'.rows[id] == added[id - t.next]
  {
    var j := id - t.next;
    assert t'.rows[t.next + j] == added[j];
  }

  /** INSERT ... RETURNING id. */
  function Insert<R>(t: Table<R>, row: R): (r: (nat, Table<R>))
    ensures r.0 == t.next
    ensures r.0 !in t.rows
    ensures Appended(t, r.1, [row])
  {
    (t.next, RawTable(t.rows[t.next := row], t.next + 1))
  }

  /** UPDATE ... WHERE id = `id`. */
  function Update<R>(t: Table<R>, id: nat, row: R): (t': Table<R>)
    requires id in t.rows
    ensures Replaced(t, t', id, row)
  {
    RawTable(t.rows[id := row], t.next)
  }

  lemma {:induction false} AppendedChain<R>(t0: Table<R>, t1: Table<R>, t2: Table<R>, a: seq<R>, b: seq<R>)
    requires Appended(t0, t1, a)
    requires Appended(t1, t2, b)
    ensures Appended(t0, t2, a + b)
  {
    var ab := a + b;
    forall j | 0 <= j < |ab|
      ensures t2.rows[t0.next + j] == ab[j]
    {
      if j < |a| {
        assert t0.next + j in t1.rows;
      } else {
        assert t2.rows[t1.next + (j - |a|)] == b[j - |a|];
      }
    }
  }

  /** A sequence of INSERTs, one per element of `added`, in order. */
  function InsertAll<R>(t: Table<R>, added: seq<R>): (t': Table<R>)
    ensures Appended(t, t', added)
    decreases |added|
  {
    if added == [] then t
    else
      var t1 := Insert(t, added[0]).1;
      var t' := InsertAll(t1, added[1..]);
      AppendedChain(t, t1, t', [added[0]], added[1..]);
      assert [added[0]] + added[1..] == added;
      t'
  }

  /** The least id at or above `lo` whose row satisfies `p`, if any. */
  function FindFrom<R>(t: Table<R>, p: R -> bool, lo: nat): (r: Option<nat>)
    ensures r.Some? ==> lo <= r.value && r.value in t.rows && p(t.rows[r.value])
    ensures r.Some? ==> forall k :: k in t.rows && lo <= k < r.value ==> !p(t.rows[k])
    ensures r.None? ==> forall k :: k in t.rows && lo <= k ==> !p(t.rows[k])
    decreases t.next - lo
  {
    if t.next <= lo then None
    else if lo in t.rows && p(t.rows[lo]) then Some(lo)
    else FindFrom(t, p, lo + 1)
  }

  /** SELECT ... WHERE p LIMIT 1, reading rows in id order. */
  function Find<R>(t: Table<R>, p: R -> bool): (r: Option<nat>)
    ensures r.Some? ==> IsFirst(t, p, r.value)
    ensures r.None? <==> forall k :: k in t.rows ==> !p(t.rows[k])
  {
    FindFrom(t, p, 0)
  }

  /** Find looks only at which rows satisfy the predicate: two tables with
      the same ids and the same verdict on every row give the same answer. */
  lemma {:induction false} FindFromAgrees<R>(t: Table<R>, u: Table<R>, p: R -> bool, q: R -> bool, lo: nat)
    requires t.next == u.next && t.rows.Keys == u.rows.Keys
    requires forall k :: k in t.rows ==> p(t.rows[k]) == q(u.rows[k])
    ensures FindFrom(t, p, lo) == FindFrom(u, q, lo)
    decreases t.next - lo
  {
    if t.next <= lo {
    } else if lo in t.rows && p(t.rows[lo]) {
    } else {
      FindFromAgrees(t, u, p, q, lo + 1);
    }
  }

  lemma FindAgrees<R>(t: Table<R>, u: Table<R>, p: R -> bool, q: R -> bool)
    requires t.next == u.next && t.rows.Keys == u.rows.Keys
    requires forall k :: k in t.rows ==> p(t.rows[k]) == q(u.rows[k])
    ensures Find(t, p) == Find(u, q)
  {
    FindFromAgrees(t, u, p, q, 0);
  }
}

=== FILE: workflow.dfy ===
/** The enrollment workflow across handlers: codes issued by a batch
validate, a redeemed or expired code cannot be redeemed again, and the
admin-facing operations behave as the routes promise when repeated.
*/
module Workflow {
  import opened Tables
  import opened Schema
  import opened Naming
  import opened Identifiers
  import opened Handlers

  /** No row of the code table other than `id` carries the code string. */
  ghost predicate OnlyRowWithCode(s: Store, id: nat, code: string) {
    forall k :: k in s.codes.rows && k != id ==> s.codes.rows[k].code != code
  }

  // ----- Validation -----

  /** Validating a valid code writes nothing, so asking again gives the
      same answer. */
  lemma ValidateIdempotentWhenValid(s: Store, code: string, now: int)
    ensures var t := ValidateCode(s, code, now);
      t.response.CodeValid? ==> t.store == s && ValidateCode(t.store, code, now) == t
  {
  }

  /** A validation that finds the code past its expiry marks it expired;
      from then on the code neither validates nor enrolls. */
  lemma ExpiredCodeIsDead(s: Store, code: string, now: int, id: nat, later: int,
                          req: EnrollRequest, f4: Frag4, f8: Frag8)
    requires IsFirst(s.codes, ValidatableCode(s, code), id)
    requires IsExpired(s.codes.rows[id], now)
    requires OnlyRowWithCode(s, id, code)
    requires req.code == code
    ensures var t := ValidateCode(s, code, now);
      && t.response == CodeInvalid(ExpiredCodeMessage)
      && t.store.codes.rows[id].status == Expired
      && ValidateCode(t.store, code, later) == Transition(CodeInvalid(InvalidCodeMessage), t.store)
      && Enroll(t.store, req, later, f4, f8) == Transition(Rejected(400, InvalidEnrollmentCode), t.store)
  {
    var t := ValidateCode(s, code, now);
    var s' := t.store;
    assert Replaced(s.codes, s'.codes, id, s.codes.rows[id].(status := Expired));
    forall k | k in s'.codes.rows
      ensures !RedeemableCode(code)(s'.codes.rows[k])
      ensures !ValidatableCode(s', code)(s'.codes.rows[k])
    {
      if k != id {
        assert s'.codes.rows[k] == s.codes.rows[k];
      }
    }
  }

  // ----- Enrollment -----

  /** Enrollment does not look at `expires_at`: changing the expiry of any
      code leaves the answer of an enrollment unchanged. */
  lemma EnrollIgnoresExpiry(s: Store, req: EnrollRequest, now: int, f4: Frag4, f8: Frag8,
                            id: nat, expiresAt: Option<int>)
    requires id in s.codes.rows
    ensures var s2 := s.(codes := Update(s.codes, id, s.codes.rows[id].(expiresAt := expiresAt)));
      Enroll(s2, req, now, f4, f8).response == Enroll(s, req, now, f4, f8).response
  {
    var s2 := s.(codes := Update(s.codes, id, s.codes.rows[id].(expiresAt := expiresAt)));
    forall k | k in s.codes.rows
      ensures RedeemableCode(req.code)(s.codes.rows[k]) == RedeemableCode(req.code)(s2.codes.rows[k])
    {
    }
    FindAgrees(s.codes, s2.codes, RedeemableCode(req.code), RedeemableCode(req.code));
  }

  /** An enrollment is answered 201 when it succeeds and 400 otherwise. */
  lemma EnrollStatus(s: Store, req: EnrollRequest, now: int, f4: Frag4, f8: Frag8)
    ensures var r := Enroll(s, req, now, f4, f8).response;
      HttpStatus(r) == (if r.Enrolled? then 201 else 400)
  {
  }

  /** In particular an active code already past its expiry still enrolls. */
  lemma EnrollAcceptsExpiredActiveCode(s: Store, req: EnrollRequest, now: int, f4: Frag4,
                                       f8: Frag8, id: nat)
    requires IsFirst(s.codes, RedeemableCode(req.code), id)
    requires IsExpired(s.codes.rows[id], now)
    ensures Enroll(s, req, now, f4, f8).response.Enrolled?
  {
  }

  /** Once a code has been redeemed it cannot be redeemed or validated again:
      of two enrollments with the same code only the first succeeds. */
  lemma RedeemedCodeIsSpent(s: Store, req: EnrollRequest, now: int, f4: Frag4, f8: Frag8,
                            id: nat, req2: EnrollRequest, later: int, g4: Frag4, g8: Frag8)
    requires IsFirst(s.codes, RedeemableCode(req.code), id)
    requires OnlyRowWithCode(s, id, req.code)
    requires req2.code == req.code
    ensures var t := Enroll(s, req, now, f4, f8);
      && t.response.Enrolled?
      && Enroll(t.store, req2, later, g4, g8) == Transition(Rejected(400, InvalidEnrollmentCode), t.store)
      && ValidateCode(t.store, req.code, later) == Transition(CodeInvalid(InvalidCodeMessage), t.store)
  {
    var t := Enroll(s, req, now, f4, f8);
    var s' := t.store;
    var row := s.codes.rows[id];
    assert Replaced(s.codes, s'.codes, id,
                    row.(status := Used, usedAt := Some(now), usedByUserId := Some(s.users.next)));
    forall k | k in s'.codes.rows
      ensures !RedeemableCode(req.code)(s'.codes.rows[k])
      ensures !ValidatableCode(s', req.code)(s'.codes.rows[k])
    {
      if k != id {
        assert s'.codes.rows[k] == s.codes.rows[k];
      }
    }
  }

  /** A successful enrollment hands out identifiers of a fixed shape:
      `eMED-{company_id}-{fragment}` for the user and `KIT-{fragment}` for the
      kit, and the company id can be read back from the eMED identifier. */
  lemma EnrollmentIdentifiers(s: Store, req: EnrollRequest, now: int, f4: Frag4, f8: Frag8,
                              id: nat)
    requires IsFirst(s.codes, RedeemableCode(req.code), id)
    ensures var t := Enroll(s, req, now, f4, f8);
      && t.response.Enrolled?
      && IsEmedIdentifierFor(t.response.emedIdentifier, s.codes.rows[id].companyId)
      && s.kits.next in t.store.kits.rows
      && IsKitIdentifier(t.store.kits.rows[s.kits.next].kitIdentifier)
  {
    var t := Enroll(s, req, now, f4, f8);
    var added := [LabKit(s.users.next, KitIdentifier(f8), Ordered, None)];
    assert t.store.kits.rows[s.kits.next + 0] == added[0];
    EmedIdentifierShape(s.codes.rows[id].companyId, f4);
    KitIdentifierShape(f8);
  }

  // ----- Code generation -----

  /** A code string carried only by freshly added active, unexpired rows of
      one company and program validates for that company and program. */
  lemma FreshCodeValidates(s: Store, s': Store, added: seq<EnrollmentCode>, j: nat,
                           companyId: nat, programId: nat, now: int)
    requires Appended(s.codes, s'.codes, added)
    requires j < |added|
    requires forall i :: 0 <= i < |added| ==>
      && added[i].companyId == companyId && added[i].programId == programId
      && added[i].status == Active && added[i].expiresAt.None?
    requires companyId in s'.companies.rows && programId in s'.programs.rows
    requires forall k :: k in s.codes.rows ==> s.codes.rows[k].code != added[j].code
    ensures var program := s'.programs.rows[programId];
      ValidateCode(s', added[j].code, now)
        == Transition(CodeValid(companyId, s'.companies.rows[companyId].name, programId,
                                program.name, program.description), s')
  {
    var c := added[j].code;
    assert s'.codes.rows[s.codes.next + j] == added[j];
    assert ValidatableCode(s', c)(s'.codes.rows[s.codes.next + j]);
    var id0 := Find(s'.codes, ValidatableCode(s', c)).value;
    assert IsFirst(s'.codes, ValidatableCode(s', c), id0);
    assert id0 !in s.codes.rows;
    AppendedRow(s.codes, s'.codes, added, id0);
    assert !IsExpired(s'.codes.rows[id0], now);
  }

  /** Every code a batch hands out validates for the batch's company and
      program, as long as no earlier row already carried the same string. */
  lemma GeneratedCodeValidates(s: Store, p: Principal, quantity: int, notes: Option<string>,
                               fragments: nat -> Frag6, j: nat, now: int)
    requires IsCompanyAdmin(s, p)
    requires GenerateCodes(s, p, quantity, notes, fragments).response.CodesGenerated?
    requires j < |GenerateCodes(s, p, quantity, notes, fragments).response.codes|
    requires var c := GenerateCodes(s, p, quantity, notes, fragments).response.codes[j];
      forall k :: k in s.codes.rows ==> s.codes.rows[k].code != c
    ensures var t := GenerateCodes(s, p, quantity, notes, fragments);
      var r := t.response;
      var program := s.programs.rows[r.programId];
      ValidateCode(t.store, r.codes[j], now)
        == Transition(CodeValid(p.companyId, s.companies.rows[p.companyId].name, r.programId,
                                program.name, program.description), t.store)
  {
    var t := GenerateCodes(s, p, quantity, notes, fragments);
    var r := t.response;
    var added := BatchCodes(r.codes, p.companyId, r.programId, p.adminId, r.batchId);
    assert added[j].code == r.codes[j];
    FreshCodeValidates(s, t.store, added, j, p.companyId, r.programId, now);
  }

  /** Scenario: every row a batch adds is an active, unexpired code of the
      batch, the caller's company and the GLP1 program, and the batch
      returns exactly `quantity` codes when `quantity` is positive. */
  lemma BatchRowsBelongToBatch(s: Store, p: Principal, quantity: int, notes: Option<string>,
                               fragments: nat -> Frag6, id: nat)
    requires IsCompanyAdmin(s, p)
    requires GenerateCodes(s, p, quantity, notes, fragments).response.CodesGenerated?
    ensures var t := GenerateCodes(s, p, quantity, notes, fragments);
      && |t.response.codes| == (if quantity > 0 then quantity else 0)
      && (id in t.store.codes.rows && id !in s.codes.rows ==>
          var row := t.store.codes.rows[id];
          && row.batchId == t.response.batchId
          && row.companyId == p.companyId
          && row.programId == t.response.programId
          && IsGlp1Program(s.programs.rows[row.programId])
          && row.status == Active
          && row.expiresAt.None?
          && row.code in t.response.codes)
  {
    var t := GenerateCodes(s, p, quantity, notes, fragments);
    var r := t.response;
    if id in t.store.codes.rows && id !in s.codes.rows {
      var added := BatchCodes(r.codes, p.companyId, r.programId, p.adminId, r.batchId);
      AppendedRow(s.codes, t.store.codes, added, id);
      var j := id - s.codes.next;
      assert added[j].code == r.codes[j];
    }
  }

  // ----- Deactivation -----

  /** Deactivating an employee twice is the same as deactivating once. */
  lemma DeactivateIdempotent(s: Store, p: Principal, userId: nat)
    requires IsCompanyAdmin(s, p)
    ensures var t := Deactivate(s, p, userId);
      IsCompanyAdmin(t.store, p) && Deactivate(t.store, p, userId) == t
  {
    var t := Deactivate(s, p, userId);
    if BelongsTo(s, userId, p.companyId) {
      var s' := t.store;
      assert s'.users.rows[userId].companyId == p.companyId;
      var t2 := Deactivate(s', p, userId);
      assert t2.store.users.rows == s'.users.rows;
    }
  }

  // ----- Provisioning -----

  /** The admin created by provisioning passes the company-admin check for
      the company created with it, and its login name is the requested email. */
  lemma ProvisionedAdminPassesGuard(s: Store, req: ProvisionRequest, f6: Frag6,
                                    hash: string -> string)
    ensures var t := Provision(s, req, f6, hash);
      && IsCompanyAdmin(t.store, Principal(t.response.adminId, t.response.companyId))
      && t.store.admins.rows[t.response.adminId].email == req.adminEmail
      && t.store.companies.rows[t.response.companyId].name == req.companyName
  {
    var t := Provision(s, req, f6, hash);
    var admin := [Admin(t.response.companyId, req.adminName, req.adminEmail, req.adminTitle,
                        hash(t.response.tempPassword), true)];
    var company := [Company(req.companyName, req.address, req.industry, req.size)];
    assert t.store.admins.rows[s.admins.next + 0] == admin[0];
    assert t.store.companies.rows[s.companies.next + 0] == company[0];
  }

  /** The portal address is the fixed base followed by a name of `[a-z0-9]`
      only, and provisioning again under that portal name yields the same address. */
  lemma PortalUrlShape(s: Store, req: ProvisionRequest, f6: Frag6, hash: string -> string)
    ensures var url := Provision(s, req, f6, hash).response.portalUrl;
      && url[..|PortalBase|] == PortalBase
      && IsPortalName(url[|PortalBase|..])
      && PortalUrl(url[|PortalBase|..]) == url
  {
    var name := PortalName(req.companyName);
    var url := Provision(s, req, f6, hash).response.portalUrl;
    assert url[|PortalBase|..] == name;
    PortalNameIdempotent(req.companyName);
  }
}
